=== FILE: README.md ===
# Task queue manager and request preprocessing — a Dafny model

This project models the core of a small asynchronous task service. Callers
submit dictionary payloads. The service preprocesses a payload that names an
image or a video: it validates the media and rewrites the path to a processed
copy. The payload then goes into an in-process task queue. A pool of workers
takes tasks from the head of that queue and marks each one processing, then
completed or failed. Callers poll a registry by task id. Beside the queue sit
two client factories: one picks a message-broker client and one picks an
object-storage client, each from environment settings.

The model is functional. A task record is an immutable datatype. The manager
state is a registry `map<TaskId, Task>`, a FIFO `seq<TaskId>` of queued ids,
the worker handles, a started flag and a tick counter. Each operation is a pure
transition function. One worker iteration (dequeue, mark processing, compute,
mark completed or failed, `task_done`) is one atomic step. The exception that
a computation may raise is an input of that step.

Modules, one per source file:

- `Common`: `Option`, `Result` and `Outcome`, plus the `str.lower()` the factories apply.
- `Values`: JSON-like payload values.
- `TaskManager`: `app/utils/task_manager.py`.
- `MqClient`: the factory of `app/utils/mq_client.py`.
- `StorageClient`: the factory and the disabled client of `app/utils/storage_client.py`.
- `Validators`: the bound and membership checks of `app/models/validators.py`.
- `DataProcesser`: `PreprocessingSystem` of `app/utils/data_processer.py`.

## Behaviour worth knowing

- The queue of `app/utils/task_manager.py` is an `asyncio.Queue()` with no maximum size, filled with `put_nowait`, so `add_task` never rejects a task. The unused stub `app/task_manager.py:36` builds a bounded `Queue(maxsize=max_queue_size)`; the manager that `app/main.py` imports does not.
- Nothing rejects a submission after `stop`. `stop` leaves `_started` set, so a later `start` cannot spawn workers again. A task submitted after `stop` therefore stays pending for good, and a second `stop` then waits forever in `queue.join()`. `SubmitAfterStopStallsNextStop` and `NoRestartAfterStop` state this.
- The manager defines no statistics operation, although `app/main.py:388` calls `get_queue_stats` on it; that call raises `AttributeError` and is not modelled.
- Nothing in the repository calls `start()` or `stop()` on the manager: `app/main.py:31` only builds it, with the default of 10 workers. In the service as written no worker runs, so every submitted task stays pending. The model describes what the manager does once `start` has been called.
- The error of a failed task is `str(e)`, which may be the empty string. The model only promises that an error is present.
- Pydantic runs the validators of `file_path` (and of `text`) before it has validated any later field. So `info.data` holds none of the bounds, and every check falls back to its default. When `_preprocess_image` builds the validation model with `max_width=self.max_image_width`, that maximum never reaches `validate_dimensions`. The validators are modelled with explicit optional bounds. The preprocessing routes call them with no bound present (`Validators.NoBounds`). `DataProcesser.OversizedImageIsShrunkNotRejected` shows the consequence: an oversized image is accepted and then thumbnailed.

## Model

| member | source | states |
|---|---|---|
| `TaskManager.NewTask` | app/utils/task_manager.py:19-32 | A new record carries the given id and data, is pending, has neither result nor error, and has `updated_at` equal to `created_at`. |
| `TaskManager.UpdateStatus` | app/utils/task_manager.py:34-46 | `update_status` keeps id, data and creation time, sets status, result and error to its arguments (an omitted one is `None`) and restamps the record. `TaskManager.UpdateStatusForgetsOldFields` states its partner property: nothing of the old status, result, error or stamp survives. |
| `TaskManager.UpdateStatusForgetsOldFields` | app/utils/task_manager.py:34-46 | `update_status` overwrites status, result and error together, and an omitted argument becomes `None`. The updated record does not depend on the old status, result, error or stamp; only id, data and creation time survive. |
| `TaskManager.BeginProcessing` | app/utils/task_manager.py:96 | The first update of `_process_task` leaves a well-formed record in status processing, with the same id, data and creation time. |
| `TaskManager.ProcessTask` | app/utils/task_manager.py:87-109 | Processing ends in a terminal state. The record is failed exactly when the computation raises. A failed record carries the exception text as its error and has no result. A completed record carries `{"processed": data}` and has no error. |
| `TaskManager.Init` | app/utils/task_manager.py:51-62 | A new manager has an empty registry, an empty queue, no workers and is not started, and it satisfies the manager invariant. The worker count defaults to 10 (`TaskManager.DefaultMaxWorkers`), the value `app/main.py` builds its manager with. |
| `TaskManager.Start` | app/utils/task_manager.py:64-75 | The first `start` appends `range(max_workers)` running workers (none for a non-positive count) and sets the started flag. A started manager is returned unchanged. The registry and the queue are never touched. |
| `TaskManager.StartPreservesInv` | app/utils/task_manager.py:64-75 | Starting the workers keeps the manager invariant, because it touches neither the registry nor the queue. |
| `TaskManager.StartIdempotent` | app/utils/task_manager.py:64-68 | Calling `start` twice equals calling it once. |
| `TaskManager.AddTask` | app/utils/task_manager.py:111-125 | The call always succeeds and returns the new id. It adds exactly that id to the registry as a pending record of the payload, leaves every other entry unchanged, and appends the id at the tail of the queue. |
| `TaskManager.AddTaskPreservesInv` | app/utils/task_manager.py:121-125 | After a submission, the queue still holds each registered id once, exactly the pending records are queued, and every record is well formed. |
| `TaskManager.GetTaskStatus` | app/utils/task_manager.py:127-148 | The result is `None` exactly for an unregistered id. Otherwise it is a snapshot whose id, status string, result, error and stamps equal the record's. |
| `TaskManager.StatusAfterSubmitIsPending` | app/utils/task_manager.py:121-148 | Polling a just-submitted id reports "pending" with neither result nor error. |
| `TaskManager.WorkerStep` | app/utils/task_manager.py:77-109 | A worker takes the head of the queue, and the rest of the queue keeps its order. The head keeps its id, data and creation time. It ends failed with the raised text as error and no result, or completed with `{"processed": data}` and no error. No other record and no key of the registry changes. |
| `TaskManager.WorkerStepPreservesInv` | app/utils/task_manager.py:79-83 | A worker iteration keeps the manager invariant: no record stays half-processed, and the dispatched id leaves the queue for good. |
| `TaskManager.Drain` | app/utils/task_manager.py:79-83 | With a live worker, the queue empties. Each queued record ends failed exactly when its computation raises, and records that were already finished are not touched. |
| `TaskManager.DrainSettlesQueued` | app/utils/task_manager.py:94-109 | Every record the drain takes keeps its data and creation time. Its error is the text its computation raised, and when nothing was raised its result is `{"processed": data}`. |
| `TaskManager.EmptyQueueMeansAllTerminal` | app/utils/task_manager.py:153 | Once the queue is joined, every registered record is completed or failed. |
| `TaskManager.Stop` | app/utils/task_manager.py:150-162 | `stop` returns exactly when the queue is empty or some worker is live. When it returns, the queue is empty, every registered record is terminal, no record was removed, and every worker is cancelled. A record that was already finished is left exactly as it was. Each queued record keeps its data and creation time, and ends failed with the text its own computation raised and no result, or completed with `{"processed": data}` and no error. |
| `TaskManager.StopIdempotent` | app/utils/task_manager.py:150-160 | A second `stop` returns at once and changes nothing. |
| `TaskManager.NoRestartAfterStop` | app/utils/task_manager.py:64-68 | On a started manager that has been stopped, `start` is a no-op and leaves no live worker. |
| `TaskManager.SubmitAfterStopStallsNextStop` | app/utils/task_manager.py:150-153 | A submission after `stop` is accepted, and a later `stop` then never returns. |
| `TaskManager.Run` | app/utils/task_manager.py:77-125 | Over any interleaving of submissions and worker iterations, the registry only grows. What was queued followed by what was submitted equals what was dispatched followed by what is still queued. |
| `TaskManager.RunPreservesInv` | app/utils/task_manager.py:77-125 | Every state a run reaches satisfies the manager invariant, and a completed or failed record is never changed again. |
| `TaskManager.DispatchFollowsSubmissionOrder` | app/utils/task_manager.py:81-123 | From an empty queue, the ids workers take are a prefix of the submitted ids in submission order (FIFO dispatch). |
| `Common.LowerChar` | app/utils/mq_client.py:316 | An ASCII capital becomes its lower-case letter (code point plus 32), KELVIN SIGN becomes "k", and no other character changes. |
| `Common.ToLower` | app/utils/mq_client.py:316 | The lowered type setting has the same length as the setting, and each character is folded as `str.lower()` folds it for comparisons with ASCII literals. |
| `MqClient.PortOrDefault` | app/utils/mq_client.py:329 | Only a port of 0 is replaced by the default; every other port, negative ones included, is kept. |
| `MqClient.CreateClient` | app/utils/mq_client.py:305-341 | "none" or an unset type gives the null client even when the port is malformed. An error is raised exactly for a malformed port with any other type (`ValueError`), or for "rabbitmq" without pika (`ImportError`). "rocketmq", "kafka" and "rabbitmq" each give their own client, and every other type gives the null client. |
| `MqClient.CreatedConfig` | app/utils/mq_client.py:321-338 | A real client's host is the setting, or "localhost" when unset. Username and password pass through. The port is the setting, or the broker default (9876, 9092, 5672) when unset or 0, so it is never 0. |
| `MqClient.CaseInsensitiveType` | app/utils/mq_client.py:316 | The broker type is compared only after lowering, so any capitalisation selects the same client. |
| `StorageClient.CreateClient` | app/utils/storage_client.py:84-115 | The OSS client is built exactly when the type is "oss", the SDK is available, and endpoint, key id, secret and bucket are all set and non-empty. It is built from exactly those four values. Every other case gives the null client. |
| `StorageClient.CaseInsensitiveType` | app/utils/storage_client.py:92 | The storage type is compared only after lowering. |
| `StorageClient.NullUpload` | app/utils/storage_client.py:45-48 | The disabled client always returns a URL, never `None`. The URL is "file://" followed by the absolute source path. |
| `Validators.ValidateTextLength` | app/models/validators.py:27-37 | Text passes exactly when it is at least the minimum (default 0) and not above a maximum that is neither `None` nor 0. Too short is reported before too long. |
| `Validators.TextAtMaximumAccepted` | app/models/validators.py:35-36 | A length equal to the maximum is accepted. |
| `Validators.ValidateLanguage` | app/models/validators.py:39-49 | A language that cannot be detected is an error. Otherwise the text passes exactly when the detected language is in the allowed list (default "zh-cn", "en"), and a rejection names the detected language. |
| `Validators.CheckSize` | app/models/validators.py:83-88 | A size passes exactly when both minima hold and no truthy maximum is exceeded. A size under either minimum is reported as below the minimum before any maximum is looked at, and the width maximum is checked before the height maximum. Each maximum exceeded is reported with its own error. |
| `Validators.ZeroMaximumIsNoMaximum` | app/models/validators.py:85-88 | A maximum of 0 behaves exactly like an absent maximum. |
| `Validators.ValidateImageDimensions` | app/models/validators.py:73-89 | An image passes exactly when it meets the minima (default 100x100) and no present, non-zero maximum is exceeded. |
| `Validators.UnboundedImageAcceptsAnyLargeImage` | app/models/validators.py:76-79 | With no bound present, every image of at least 100x100 passes, however large it is. |
| `Validators.ValidateVideoResolution` | app/models/validators.py:128-147 | A video passes exactly when it meets the minima (default 320x240) and no present, non-zero maximum is exceeded. |
| `Validators.CheckFormat` | app/models/validators.py:96-98 | A MIME type passes exactly when it occurs in the allowed list. A rejected type is reported with the type itself. |
| `Validators.ValidateImageFormat` | app/models/validators.py:91-99 | An image format passes exactly when its MIME type is in the given list, or in the default list when none is given. |
| `Validators.DefaultImageFormats` | app/models/validators.py:94 | With no list given, exactly "image/jpeg", "image/png" and "image/gif" pass. |
| `Validators.ValidateVideoFormat` | app/models/validators.py:149-157 | A video format passes exactly when its MIME type is in the given list, or in the default list when none is given. |
| `Validators.DefaultVideoFormats` | app/models/validators.py:152 | With no list given, exactly "video/mp4", "video/avi" and "video/mov" pass. |
| `DataProcesser.RFind` | app/utils/data_processer.py:103 | The index found holds the character sought and no later index does; -1 means the character does not occur. |
| `DataProcesser.SplitExt` | app/utils/data_processer.py:103 | Root and extension concatenate back to the path. An extension is split off exactly when the last path component has a dot after some character other than a dot, so ".bashrc" has none. It then starts at the last dot of the path, starts with its only dot, and contains no slash. |
| `DataProcesser.OutputPathsSplitBack` | app/utils/data_processer.py:103-156 | An output path is the input's root followed by "_processed.jpg" or "_processed.mp4". Splitting it again gives that root plus "_processed", and the new extension. The root is a prefix of the input path. |
| `DataProcesser.ValidateImage` | app/utils/data_processer.py:82-90 | The image validation model accepts exactly when the size check passes, the dimension check passes with every bound at its default, and the format check passes with the default list. A rejection carries the error of the first failing check, in the order size, dimensions, format. |
| `DataProcesser.ValidateVideo` | app/utils/data_processer.py:130-138 | The video validation model accepts exactly when the duration check passes, the resolution check passes with every bound at its default, and the format check passes with the default list. A rejection carries the error of the first failing check, in the order duration, resolution, format. |
| `DataProcesser.PreprocessImage` | app/utils/data_processer.py:69-115 | It succeeds only for a string path to a readable image that validates. On success the payload keeps all other keys. The image path becomes the "_processed.jpg" output path, and "image_info" records the final width and height (the thumbnail size only when the image exceeded the configured maximum), "JPEG" and "RGB". A non-string path, an unreadable file and a rejected image each give their own error, the last carrying the validation error. |
| `DataProcesser.PreprocessVideo` | app/utils/data_processer.py:117-187 | It succeeds only for a string path to a readable video that validates. On success the payload keeps all other keys. The video path becomes the "_processed.mp4" output path, and "video_info" records the frame size (scaled only when it exceeded the output size), the rate, the frame count and "MP4". A non-string path, an unreadable file and a rejected video each give their own error, the last carrying the validation error. |
| `DataProcesser.Preprocess` | app/utils/data_processer.py:44-67 | An "image" key routes to the image route even when "video" is present. Otherwise a "video" key routes to the video route. A payload with neither key comes back unchanged. A route's error is returned as it is. |
| `DataProcesser.ImageRouteWins` | app/utils/data_processer.py:59-62 | When a payload has both keys, its "video" entry comes back untouched and no video info is added. |
| `DataProcesser.OversizedImageIsShrunkNotRejected` | app/utils/data_processer.py:82-100 | An image larger than the configured maximum, with an accepted format and file size, is accepted and shrunk to the thumbnail size, because the configured maximum never reaches validation. |

## Left out

- Asynchronous runtime: task creation, `await`, `asyncio.sleep(1)`, cancellation and `gather` are not modelled. One worker iteration is one atomic step, so the processing status is observable only inside `TaskManager.ProcessTask` and never between steps. With several workers, the model serialises their iterations.
- `TaskManager.WorkerStep`: the exception the computation may raise is an input. The placeholder computation in the source practically never raises. Exceptions outside `Exception` (cancellation) are not modelled.
- `TaskManager.Run`: a worker iteration is skipped when the queue head is not a registered record stamped before the current tick. Under the manager invariant this never happens (`TaskManager.InvGivesHeadReady`).
- `TaskManager.AddTask`: `uuid.uuid4()` is replaced by an id given as input and required to be fresh. A colliding uuid would overwrite the registry entry; this is not modelled.
- Timestamps: `datetime.now()` is the manager's tick counter, and ISO formatting is not modelled. The stamp ordering in `TaskManager.WellFormed` and `TaskManager.Inv` (`created_at <= updated_at`, every stamp before the current tick) holds because the counter only grows. The source reads the wall clock, which can step backwards, so the program itself does not guarantee that ordering.
- The logging calls of every module, and `app/utils/logger.py`, are not modelled.
- `Common.ToLower`: only the ASCII capitals and KELVIN SIGN are folded. Python folds other non-ASCII letters too, but never to an ASCII-only string, so comparisons with the factories' ASCII literals come out the same.
- The broker clients' connect, disconnect, send and subscribe methods, and the OSS client's constructor and upload, are vendor-library calls that are not modelled.
- `DataProcesser.SplitExt` models POSIX `os.path.splitext`, with `/` as the only separator. The Windows variant, which also splits at `\` and drive letters, is not modelled.
- `os.path.abspath` depends on the working directory. `StorageClient.NullUpload` takes the absolute path as input.
- `int(...)` parsing of `MQ_PORT` is not modelled. Its outcome (unset, a number, or malformed) is the input.
- `PreprocessingSystem.__init__` reads its settings from the environment; `DataProcesser.Config` takes them as given, with the source's defaults in `DataProcesser.DefaultConfig`.
- Floating point: the megabyte size check, the video duration check (including a zero frame rate) and the video scale factor are not modelled. The first two are boolean inputs. The scaled frame size and PIL's thumbnail size are inputs.
- Library calls: PIL's open, convert, thumbnail and save, OpenCV's capture, frame loop and writer, `magic` MIME detection and `langdetect` are not modelled. Their results (readability, size, MIME type, language) are inputs.
- Pydantic itself is not modelled. Only its field-order consequence is modelled: the path validators see no bound. Turning its exceptions into a `ValidationError` is not modelled; the model returns the validator's error.
- `DataProcesser.PreprocessImage`: a file that exists but cannot be decoded is reported as unreadable, even when the size check, which runs first, would already fail. The same holds for `DataProcesser.PreprocessVideo`.
- `PostprocessingSystem.postprocess` returns its argument and is not modelled.
- `app/main.py` (HTTP and MCP routing, the optional broker publish after submission, response wrapping) is glue and is not modelled. The publish is awaited inside the submission's `try`, so a publish failure fails the submission.
- The files with `pass` bodies are not modelled: `app/task_manager.py`, `app/data_processer.py`, `app/mq_client.py`, `app/utils/validator.py` and both `service_registry.py` files.

=== FILE: common.dfy ===
/** Failure-carrying shapes shared by every module of the model, and the
    case-folding helper the client factories apply to their type settings. */
module Common {

  /** Python's `None`-or-value. */
  datatype Option<+T> = None | Some(value: T) {

    /** The value, or `default` when absent (`dict.get(key, default)`). */
    function GetOr(default: T): T {
      match this
      case Some(v) => v
      case None => default
    }
  }

  /** A value, or the exception the source raises instead. */
  datatype Result<+T, +E> = Ok(value: T) | Err(error: E)

  /** A check that passes, or the exception it raises. */
  datatype Outcome<+E> = Pass | Fail(error: E)

  /** One character of Python's `str.lower()`, as far as any comparison with
      an ASCII literal can tell: the ASCII capitals fold to lower case and
      KELVIN SIGN (U+212A) folds to 'k'. No other character lowers to an
      ASCII-only string, so every other character is kept as it is. */
  function LowerChar(c: char): (d: char)
    ensures 'A' <= c <= 'Z' ==> d as int == c as int + 32 && 'a' <= d <= 'z'
    ensures c == '\U{212A}' ==> d == 'k'
    ensures d != c ==> ('A' <= c <= 'Z' || c == '\U{212A}')
  {
    if 'A' <= c <= 'Z' then (c as int - 'A' as int + 'a' as int) as char
    else if c == '\U{212A}' then 'k'
    else c
  }

  /** `s.lower()`, character by character. */
  function ToLower(s: string): (r: string)
    ensures |r| == |s|
    ensures forall i :: 0 <= i < |s| ==> r[i] == LowerChar(s[i])
  {
    if s == [] then [] else [LowerChar(s[0])] + ToLower(s[1..])
  }

  /** Lowering an already lowered string changes nothing, so a factory that
      lowers its type setting cannot tell a setting from its lowered form. */
  lemma ToLowerIdempotent(s: string)
    ensures ToLower(ToLower(s)) == ToLower(s)
  {
  }
}

=== FILE: data_processer.dfy ===
/** The preprocessing step a payload goes through before it is queued:
    routing on the "image" and "video" keys, the validation each route runs,
    and the output path and info record written back into the payload.
    Everything an image or video library reports (pixel size, MIME type,
    thumbnail size, scaled frame size, frame rate, frame count) and the
    floating-point file-size and duration checks are inputs. */
module DataProcesser {
  import opened Common
  import opened Values
  import V = Validators

  /** `str.rfind`: the index of the last `c` in `s`, or -1. */
  function RFind(s: string, c: char): (i: int)
    ensures -1 <= i < |s|
    ensures i >= 0 ==> s[i] == c
    ensures forall k :: i < k < |s| ==> s[k] != c
  {
    if s == [] then -1
    else if s[|s| - 1] == c then |s| - 1
    else RFind(s[..|s| - 1], c)
  }

  /** Some character of `s[lo..hi]` is not a dot. */
  predicate HasNonDot(s: string, lo: int, hi: int)
    requires 0 <= lo && hi <= |s|
  {
    exists k :: lo <= k < hi && s[k] != '.'
  }

  /** `os.path.splitext` on POSIX paths: the extension starts at the last dot
      of the last path component, provided that component has a character
      other than a dot before it (so ".bashrc" and "..." have none). */
  function SplitExt(p: string): (r: (string, string))
    ensures r.0 + r.1 == p
    ensures r.1 != [] ==> r.1[0] == '.' && forall k :: 0 <= k < |r.1| ==> r.1[k] != '/'
    ensures r.1 != [] ==> forall k :: 1 <= k < |r.1| ==> r.1[k] != '.'
    ensures var s := RFind(p, '/');
      r.1 != [] <==> exists i, j :: s < j < i < |p| && p[j] != '.' && p[i] == '.'
    ensures r.1 != [] ==> |r.0| == RFind(p, '.')
  {
    var sepIndex := RFind(p, '/');
    var dotIndex := RFind(p, '.');
    if dotIndex > sepIndex && HasNonDot(p, sepIndex + 1, dotIndex) then
      assert p[..dotIndex] + p[dotIndex..] == p;
      (p[..dotIndex], p[dotIndex..])
    else (p, "")
  }

  /** Splitting a path made of any root and a suffix that has a dot after at
      least one non-dot character and no other dot or slash peels exactly
      that suffix's extension. */
  lemma SplitExtOfSuffix(root: string, stem: string, ext: string)
    requires |stem| > 0 && stem[0] != '.'
    requires forall k :: 0 <= k < |stem| ==> stem[k] != '.' && stem[k] != '/'
    requires |ext| > 0 && ext[0] == '.'
    requires forall k :: 0 <= k < |ext| ==> ext[k] != '/'
    requires forall k :: 1 <= k < |ext| ==> ext[k] != '.'
    ensures SplitExt(root + stem + ext) == (root + stem, ext)
  {
    var p := root + stem + ext;
    var dot := |root| + |stem|;
    var sepIndex := RFind(p, '/');
    var dotIndex := RFind(p, '.');
    assert p[dot] == '.';
    forall k | dot < k < |p|
      ensures p[k] != '.'
    {
      assert p[k] == ext[k - dot];
    }
    forall k | |root| <= k < |p|
      ensures p[k] != '/'
    {
      if k < dot {
        assert p[k] == stem[k - |root|];
      } else {
        assert p[k] == ext[k - dot];
      }
    }
    assert dotIndex == dot;
    assert sepIndex < |root|;
    assert p[|root|] == stem[0];
    assert HasNonDot(p, sepIndex + 1, dotIndex);
    assert p[..dot] == root + stem;
    assert p[dot..] == ext;
  }

  const ProcessedSuffix: string := "_processed"
  const JpegExtension: string := ".jpg"
  const Mp4Extension: string := ".mp4"

  /** `f"{os.path.splitext(path)[0]}_processed.jpg"`. */
  function ImageOutputPath(path: string): string {
    SplitExt(path).0 + ProcessedSuffix + JpegExtension
  }

  /** `f"{os.path.splitext(path)[0]}_processed.mp4"`. */
  function VideoOutputPath(path: string): string {
    SplitExt(path).0 + ProcessedSuffix + Mp4Extension
  }

  /** The output path keeps everything of the input path but its extension,
      and splitting it again yields that root with "_processed" and the new
      extension. */
  lemma OutputPathsSplitBack(path: string)
    ensures SplitExt(ImageOutputPath(path)) == (SplitExt(path).0 + ProcessedSuffix, JpegExtension)
    ensures SplitExt(VideoOutputPath(path)) == (SplitExt(path).0 + ProcessedSuffix, Mp4Extension)
    ensures |SplitExt(path).0| <= |path| && path[..|SplitExt(path).0|] == SplitExt(path).0
  {
    SplitExtOfSuffix(SplitExt(path).0, ProcessedSuffix, JpegExtension);
    SplitExtOfSuffix(SplitExt(path).0, ProcessedSuffix, Mp4Extension);
    assert path == SplitExt(path).0 + SplitExt(path).1;
  }

  /** `PreprocessingSystem.__init__`'s settings; reading them from the
      environment is not modelled. */
  datatype Config = Config(maxImageWidth: int, maxImageHeight: int, videoOutputWidth: int, videoOutputHeight: int)

  const DefaultConfig: Config := Config(4096, 4096, 1920, 1080)

  /** What the image libraries report about the file at the image path. */
  datatype ImageFacts = ImageFacts(
    withinSizeLimit: bool,  // the MB comparison of validate_file_size
    width: int,
    height: int,
    mime: string,
    thumbWidth: int,        // the size PIL's thumbnail leaves, when it runs
    thumbHeight: int)

  /** What the video libraries report about the file at the video path. */
  datatype VideoFacts = VideoFacts(
    withinDurationLimit: bool,  // the seconds comparison of validate_duration
    width: int,
    height: int,
    mime: string,
    fps: real,
    frameCount: int,
    scaledWidth: int,           // int(width * scale), when scaling runs
    scaledHeight: int)

  datatype PreprocessError =
    | PathNotAString(key: string)                // the model rejects a non-string path
    | Unreadable(path: string)                   // the file cannot be opened or read
    | Invalid(error: V.ValidationError)          // a validator raised

  /** The validators of `ImageValidationModel` in declaration order. The
      path is the first declared field, so no bound has been validated when
      they run and every bound takes its default. */
  function ValidateImage(f: ImageFacts): (r: Outcome<V.ValidationError>)
    ensures r.Pass? <==> f.withinSizeLimit && V.ValidateImageDimensions(f.width, f.height, V.NoBounds).Pass? && V.ValidateImageFormat(f.mime, None).Pass?
    ensures !f.withinSizeLimit ==> r == Fail(V.FileTooLarge)
    ensures f.withinSizeLimit && V.ValidateImageDimensions(f.width, f.height, V.NoBounds).Fail? ==> r == V.ValidateImageDimensions(f.width, f.height, V.NoBounds)
    ensures r.Fail? && f.withinSizeLimit && V.ValidateImageDimensions(f.width, f.height, V.NoBounds).Pass? ==> r == Fail(V.UnsupportedFormat(f.mime))
  {
    if !f.withinSizeLimit then Fail(V.FileTooLarge)
    else
      match V.ValidateImageDimensions(f.width, f.height, V.NoBounds)
      case Fail(e) => Fail(e)
      case Pass => V.ValidateImageFormat(f.mime, None)
  }

  /** The validators of `VideoValidationModel` in declaration order, again
      with every bound at its default. */
  function ValidateVideo(f: VideoFacts): (r: Outcome<V.ValidationError>)
    ensures r.Pass? <==> f.withinDurationLimit && V.ValidateVideoResolution(f.width, f.height, V.NoBounds).Pass? && V.ValidateVideoFormat(f.mime, None).Pass?
    ensures !f.withinDurationLimit ==> r == Fail(V.VideoTooLong)
    ensures f.withinDurationLimit && V.ValidateVideoResolution(f.width, f.height, V.NoBounds).Fail? ==> r == V.ValidateVideoResolution(f.width, f.height, V.NoBounds)
    ensures r.Fail? && f.withinDurationLimit && V.ValidateVideoResolution(f.width, f.height, V.NoBounds).Pass? ==> r == Fail(V.UnsupportedFormat(f.mime))
  {
    if !f.withinDurationLimit then Fail(V.VideoTooLong)
    else
      match V.ValidateVideoResolution(f.width, f.height, V.NoBounds)
      case Fail(e) => Fail(e)
      case Pass => V.ValidateVideoFormat(f.mime, None)
  }

  /** Only images wider or taller than the configured maximum are shrunk. */
  predicate ImageNeedsResize(f: ImageFacts, cfg: Config) {
    f.width > cfg.maxImageWidth || f.height > cfg.maxImageHeight
  }

  /** `_preprocess_image`: validate, convert to RGB, shrink when too large,
      then replace the image path by the output path and record the final
      size. `facts` is `None` when the file cannot be read. */
  function PreprocessImage(data: Payload, facts: Option<ImageFacts>, cfg: Config): (r: Result<Payload, PreprocessError>)
    requires "image" in data
    ensures r.Ok? ==> data["image"].VStr? && facts.Some? && ValidateImage(facts.value).Pass?
    ensures r.Ok? ==>
      var f := facts.value;
      var resized := ImageNeedsResize(f, cfg);
      && r.value.Keys == data.Keys + {"image_info"}
      && (forall k :: k in data && k != "image" && k != "image_info" ==> r.value[k] == data[k])
      && r.value["image"] == VStr(ImageOutputPath(data["image"].s))
      && r.value["image_info"] == VDict(map[
           "width" := VInt(if resized then f.thumbWidth else f.width),
           "height" := VInt(if resized then f.thumbHeight else f.height),
           "format" := VStr("JPEG"),
           "mode" := VStr("RGB")])
    ensures r.Err? ==> !data["image"].VStr? || facts.None? || ValidateImage(facts.value).Fail?
    ensures !data["image"].VStr? ==> r == Err(PathNotAString("image"))
    ensures data["image"].VStr? && facts.None? ==> r == Err(Unreadable(data["image"].s))
    ensures r.Err? && data["image"].VStr? && facts.Some? ==> r.error == Invalid(ValidateImage(facts.value).error)
  {
    match data["image"]
    case VStr(path) =>
      (match facts
       case None => Err(Unreadable(path))
       case Some(f) =>
         match ValidateImage(f)
         case Fail(e) => Err(Invalid(e))
         case Pass =>
           var (width, height) := if ImageNeedsResize(f, cfg) then (f.thumbWidth, f.thumbHeight) else (f.width, f.height);
           var info := VDict(map["width" := VInt(width), "height" := VInt(height), "format" := VStr("JPEG"), "mode" := VStr("RGB")]);
           Ok(data["image" := VStr(ImageOutputPath(path))]["image_info" := info]))
    case _ => Err(PathNotAString("image"))
  }

  /** Only videos wider or taller than the configured output size are
      scaled. */
  predicate VideoNeedsScaling(f: VideoFacts, cfg: Config) {
    f.width > cfg.videoOutputWidth || f.height > cfg.videoOutputHeight
  }

  /** `_preprocess_video`: validate, scale the frame size when too large,
      then replace the video path by the output path and record the frame
      size, rate and count. */
  function PreprocessVideo(data: Payload, facts: Option<VideoFacts>, cfg: Config): (r: Result<Payload, PreprocessError>)
    requires "video" in data
    ensures r.Ok? ==> data["video"].VStr? && facts.Some? && ValidateVideo(facts.value).Pass?
    ensures r.Ok? ==>
      var f := facts.value;
      var scaled := VideoNeedsScaling(f, cfg);
      && r.value.Keys == data.Keys + {"video_info"}
      && (forall k :: k in data && k != "video" && k != "video_info" ==> r.value[k] == data[k])
      && r.value["video"] == VStr(VideoOutputPath(data["video"].s))
      && r.value["video_info"] == VDict(map[
           "width" := VInt(if scaled then f.scaledWidth else f.width),
           "height" := VInt(if scaled then f.scaledHeight else f.height),
           "fps" := VReal(f.fps),
           "frame_count" := VInt(f.frameCount),
           "format" := VStr("MP4")])
    ensures r.Err? ==> !data["video"].VStr? || facts.None? || ValidateVideo(facts.value).Fail?
    ensures !data["video"].VStr? ==> r == Err(PathNotAString("video"))
    ensures data["video"].VStr? && facts.None? ==> r == Err(Unreadable(data["video"].s))
    ensures r.Err? && data["video"].VStr? && facts.Some? ==> r.error == Invalid(ValidateVideo(facts.value).error)
  {
    match data["video"]
    case VStr(path) =>
      (match facts
       case None => Err(Unreadable(path))
       case Some(f) =>
         match ValidateVideo(f)
         case Fail(e) => Err(Invalid(e))
         case Pass =>
           var (width, height) := if VideoNeedsScaling(f, cfg) then (f.scaledWidth, f.scaledHeight) else (f.width, f.height);
           var info := VDict(map["width" := VInt(width), "height" := VInt(height), "fps" := VReal(f.fps),
                                 "frame_count" := VInt(f.frameCount), "format" := VStr("MP4")]);
           Ok(data["video" := VStr(VideoOutputPath(path))]["video_info" := info]))
    case _ => Err(PathNotAString("video"))
  }

  /** `PreprocessingSystem.preprocess`: an "image" key wins over a "video"
      key, a payload with neither passes through unchanged, and any error of
      the chosen route is raised to the caller as it is. */
  function Preprocess(data: Payload, image: Option<ImageFacts>, video: Option<VideoFacts>, cfg: Config): (r: Result<Payload, PreprocessError>)
    ensures "image" in data ==> r == PreprocessImage(data, image, cfg)
    ensures "image" !in data && "video" in data ==> r == PreprocessVideo(data, video, cfg)
    ensures "image" !in data && "video" !in data ==> r == Ok(data)
  {
    if "image" in data then PreprocessImage(data, image, cfg)
    else if "video" in data then PreprocessVideo(data, video, cfg)
    else Ok(data)
  }

  /** A payload carrying both keys goes down the image route only: its
      "video" entry comes back untouched and no video info is added. */
  lemma ImageRouteWins(data: Payload, image: Option<ImageFacts>, video: Option<VideoFacts>, cfg: Config)
    requires "image" in data && "video" in data
    requires Preprocess(data, image, video, cfg).Ok?
    ensures Preprocess(data, image, video, cfg).value["video"] == data["video"]
    ensures "video_info" in Preprocess(data, image, video, cfg).value <==> "video_info" in data
  {
  }

  /** The configured maximum image size does not reach validation: an image
      of any size of at least 100x100, with an accepted format and file size,
      is accepted and then shrunk to the thumbnail size when it exceeds the
      configured maximum. */
  lemma OversizedImageIsShrunkNotRejected(data: Payload, f: ImageFacts, cfg: Config)
    requires "image" in data && data["image"].VStr?
    requires f.withinSizeLimit && f.mime in V.ImageDefaultFormats
    requires f.width > cfg.maxImageWidth >= V.ImageDefaultMinWidth && f.height >= V.ImageDefaultMinHeight
    ensures PreprocessImage(data, Some(f), cfg).Ok?
    ensures PreprocessImage(data, Some(f), cfg).value["image_info"].fields["width"] == VInt(f.thumbWidth)
  {
  }
}

=== FILE: mq_client.dfy ===
/** The message-broker client factory: which client the `MQ_TYPE` setting
    selects, and the broker port each client ends up with. The environment is
    an explicit input; the clients' connect/send/subscribe bodies are not
    part of this model. */
module MqClient {
  import opened Common

  /** What `int(os.getenv('MQ_PORT', 0))` sees: no setting (read as 0), a
      setting that parses as an integer, or one that does not, on which
      `int` raises `ValueError`. */
  datatype PortSetting = PortUnset | PortNumber(n: int) | PortMalformed

  /** The broker-related environment variables. `None` means unset. */
  datatype MqEnv = MqEnv(
    mqType: Option<string>,
    host: Option<string>,
    port: PortSetting,
    username: Option<string>,
    password: Option<string>)

  /** `MQConfig`; the extra keyword arguments are never passed by the
      factory. */
  datatype MqConfig = MqConfig(host: string, port: int, username: Option<string>, password: Option<string>)

  datatype Client =
    | NullMQClient
    | RocketMQClient(config: MqConfig)
    | KafkaClient(config: MqConfig)
    | RabbitMQClient(config: MqConfig)

  /** The exceptions `create_client` lets escape. */
  datatype FactoryError =
    | PortNotAnInteger   // ValueError from int(MQ_PORT)
    | PikaMissing        // ImportError: rabbitmq requested without pika

  const RocketMQDefaultPort: int := 9876
  const KafkaDefaultPort: int := 9092
  const RabbitMQDefaultPort: int := 5672

  /** The lowered broker type; an unset `MQ_TYPE` reads as "none". */
  function MqType(env: MqEnv): string {
    ToLower(env.mqType.GetOr("none"))
  }

  /** `if not config.port: config.port = default` — only a zero port is
      replaced; any other value, negative ones included, is kept. */
  function PortOrDefault(port: int, default: int): (p: int)
    ensures port != 0 ==> p == port
    ensures port == 0 ==> p == default
  {
    if port == 0 then default else port
  }

  /** `MQClientFactory.create_client`. The type "none" returns before the
      host and port are read, so a malformed port only matters for the other
      types — including unsupported ones, for which the config is built
      before the type is found wanting. */
  function CreateClient(env: MqEnv, pikaAvailable: bool): (r: Result<Client, FactoryError>)
    ensures MqType(env) == "none" ==> r == Ok(NullMQClient)
    ensures r.Err? <==> MqType(env) != "none" && (env.port.PortMalformed? || (MqType(env) == "rabbitmq" && !pikaAvailable))
    ensures r.Err? && env.port.PortMalformed? ==> r.error == PortNotAnInteger
    ensures r.Err? && !env.port.PortMalformed? ==> r.error == PikaMissing
    ensures r.Ok? && r.value.NullMQClient? <==> MqType(env) !in {"rocketmq", "kafka", "rabbitmq"} && (MqType(env) == "none" || !env.port.PortMalformed?)
    ensures r.Ok? && r.value.RocketMQClient? <==> MqType(env) == "rocketmq" && !env.port.PortMalformed?
    ensures r.Ok? && r.value.KafkaClient? <==> MqType(env) == "kafka" && !env.port.PortMalformed?
    ensures r.Ok? && r.value.RabbitMQClient? <==> MqType(env) == "rabbitmq" && pikaAvailable && !env.port.PortMalformed?
  {
    var mqType := MqType(env);
    if mqType == "none" then Ok(NullMQClient)
    else match env.port
      case PortMalformed => Err(PortNotAnInteger)
      case PortUnset => Select(mqType, MqConfig(env.host.GetOr("localhost"), 0, env.username, env.password), pikaAvailable)
      case PortNumber(n) => Select(mqType, MqConfig(env.host.GetOr("localhost"), n, env.username, env.password), pikaAvailable)
  }

  /** The type dispatch of `create_client`, once the config is built. */
  function Select(mqType: string, config: MqConfig, pikaAvailable: bool): Result<Client, FactoryError> {
    if mqType == "rocketmq" then Ok(RocketMQClient(config.(port := PortOrDefault(config.port, RocketMQDefaultPort))))
    else if mqType == "kafka" then Ok(KafkaClient(config.(port := PortOrDefault(config.port, KafkaDefaultPort))))
    else if mqType == "rabbitmq" then
      if !pikaAvailable then Err(PikaMissing)
      else Ok(RabbitMQClient(config.(port := PortOrDefault(config.port, RabbitMQDefaultPort))))
    else Ok(NullMQClient)
  }

  /** The port a broker of type `mqType` listens on by default. */
  function DefaultPort(mqType: string): int {
    if mqType == "rocketmq" then RocketMQDefaultPort
    else if mqType == "kafka" then KafkaDefaultPort
    else RabbitMQDefaultPort
  }

  /** The configuration of every real client the factory builds: the host
      defaults to "localhost" only when unset (an empty setting is kept),
      the credentials pass through untouched, and the port is the configured
      one unless that is unset or 0, in which case it is the broker's
      default. A real client never ends up with port 0. */
  lemma CreatedConfig(env: MqEnv, pikaAvailable: bool)
    requires CreateClient(env, pikaAvailable).Ok? && !CreateClient(env, pikaAvailable).value.NullMQClient?
    ensures var c := CreateClient(env, pikaAvailable).value.config;
      && c.host == (if env.host.Some? then env.host.value else "localhost")
      && c.username == env.username && c.password == env.password
      && c.port == (if env.port.PortNumber? && env.port.n != 0 then env.port.n else DefaultPort(MqType(env)))
      && c.port != 0
  {
  }

  /** The factory reads `MQ_TYPE` only through its lowered form: spelling
      the type in any case selects the same client. */
  lemma CaseInsensitiveType(env: MqEnv, pikaAvailable: bool)
    requires env.mqType.Some?
    ensures CreateClient(env, pikaAvailable) == CreateClient(env.(mqType := Some(ToLower(env.mqType.value))), pikaAvailable)
  {
    ToLowerIdempotent(env.mqType.value);
  }
}

=== FILE: storage_client.dfy ===
/** The object-storage client factory and the disabled client's upload
    result. The environment and the availability of the OSS SDK are inputs;
    the OSS client's upload is not part of this model. */
module StorageClient {
  import opened Common

  /** The storage-related environment variables. `None` means unset. */
  datatype StorageEnv = StorageEnv(
    storageType: Option<string>,
    endpoint: Option<string>,
    accessKeyId: Option<string>,
    accessKeySecret: Option<string>,
    bucketName: Option<string>)

  datatype Client =
    | NullStorageClient
    | AliyunOSSClient(endpoint: string, accessKeyId: string, accessKeySecret: string, bucketName: string)

  /** The lowered storage type; an unset `STORAGE_TYPE` reads as "none". */
  function StorageType(env: StorageEnv): string {
    ToLower(env.storageType.GetOr("none"))
  }

  /** Python truthiness of an optional string: set and not empty. */
  predicate Truthy(s: Option<string>) {
    s.Some? && s.value != ""
  }

  /** All four OSS settings are present and non-empty (`all([...])`). */
  predicate OssConfigured(env: StorageEnv) {
    Truthy(env.endpoint) && Truthy(env.accessKeyId) && Truthy(env.accessKeySecret) && Truthy(env.bucketName)
  }

  /** `StorageClientFactory.create_client`: the OSS client exactly when the
      type is "oss", the SDK is installed and all four settings are given;
      the disabled client in every other case. It raises nothing of its
      own; the OSS client's constructor is not part of this model. */
  function CreateClient(env: StorageEnv, ossAvailable: bool): (c: Client)
    ensures c.AliyunOSSClient? <==> StorageType(env) == "oss" && ossAvailable && OssConfigured(env)
    ensures c.AliyunOSSClient? ==>
      && Some(c.endpoint) == env.endpoint
      && Some(c.accessKeyId) == env.accessKeyId
      && Some(c.accessKeySecret) == env.accessKeySecret
      && Some(c.bucketName) == env.bucketName
  {
    var storageType := StorageType(env);
    if storageType == "none" then NullStorageClient
    else if storageType == "oss" then
      if !ossAvailable then NullStorageClient
      else if !OssConfigured(env) then NullStorageClient
      else AliyunOSSClient(env.endpoint.value, env.accessKeyId.value, env.accessKeySecret.value, env.bucketName.value)
    else NullStorageClient
  }

  /** The factory reads `STORAGE_TYPE` only through its lowered form. */
  lemma CaseInsensitiveType(env: StorageEnv, ossAvailable: bool)
    requires env.storageType.Some?
    ensures CreateClient(env, ossAvailable) == CreateClient(env.(storageType := Some(ToLower(env.storageType.value))), ossAvailable)
  {
    ToLowerIdempotent(env.storageType.value);
  }

  const FileScheme: string := "file://"

  /** `NullStorageClient.upload_file`: nothing is uploaded; the answer is a
      `file://` URL of the source's absolute path (`os.path.abspath` reads
      the working directory and is an input here). */
  function NullUpload(absoluteSourcePath: string): (url: Option<string>)
    ensures url.Some?
    ensures |url.value| >= |FileScheme| && url.value[..|FileScheme|] == FileScheme
    ensures url.value[|FileScheme|..] == absoluteSourcePath
  {
    Some(FileScheme + absoluteSourcePath)
  }
}

=== FILE: task_manager.dfy ===
/** The task lifecycle and queue manager: a registry from task id to task
    record, a FIFO queue of pending ids, and a pool of workers that take the
    head of the queue and drive it to a terminal state.

    The asynchronous runtime is taken away: every worker iteration (dequeue,
    mark processing, compute, mark completed or failed, `task_done`) is one
    atomic step, `datetime.now()` is the manager's tick counter, and the
    fault a computation may raise is an input of the step. */
module TaskManager {
  import opened Common
  import opened Values

  /** The source uses `str(uuid.uuid4())`; ids are taken as inputs that are
      fresh for the registry. */
  type TaskId = string

  datatype Status = Pending | Processing | Completed | Failed {

    /** The string the source stores in `Task.status`. */
    function Name(): string {
      match this
      case Pending => "pending"
      case Processing => "processing"
      case Completed => "completed"
      case Failed => "failed"
    }

    predicate IsTerminal() {
      Completed? || Failed?
    }
  }

  datatype Task = Task(
    id: TaskId,
    data: Payload,
    status: Status,
    result: Option<Value>,
    error: Option<string>,
    createdAt: nat,
    updatedAt: nat)

  /** What a successful run of the placeholder computation returns:
      `{"processed": data}`. */
  function ProcessedResult(data: Payload): Value {
    VDict(map["processed" := VDict(data)])
  }

  /** A record whose status never implies a field that is unset, and whose
      timestamps are ordered. */
  predicate WellFormed(t: Task) {
    && t.createdAt <= t.updatedAt
    && match t.status
       case Pending => t.result == None && t.error == None && t.updatedAt == t.createdAt
       case Processing => t.result == None && t.error == None
       case Completed => t.result == Some(ProcessedResult(t.data)) && t.error == None
       case Failed => t.result == None && t.error.Some?
  }

  /** `Task.__init__`: a fresh record for `data`, stamped `now`. */
  function NewTask(id: TaskId, data: Payload, now: nat): (t: Task)
    ensures t.id == id && t.data == data && t.createdAt == now
    ensures t.status == Pending && WellFormed(t)
  {
    Task(id, data, Pending, None, None, now, now)
  }

  /** `Task.update_status`: status, result and error are all overwritten (an
      argument the caller leaves out is `None`) and the record is restamped.
      There is no transition guard; ordering is the caller's business. */
  function UpdateStatus(t: Task, status: Status, result: Option<Value>, error: Option<string>, now: nat): (r: Task)
    ensures r.id == t.id && r.data == t.data && r.createdAt == t.createdAt
    ensures r.status == status && r.result == result && r.error == error && r.updatedAt == now
  {
    t.(status := status, result := result, error := error, updatedAt := now)
  }

  /** Whatever status, result, error or stamp the record held before, the
      updated record is the same: only id, data and creation time survive. */
  lemma UpdateStatusForgetsOldFields(t: Task, u: Task, status: Status, result: Option<Value>, error: Option<string>, now: nat)
    requires t.id == u.id && t.data == u.data && t.createdAt == u.createdAt
    ensures UpdateStatus(t, status, result, error, now) == UpdateStatus(u, status, result, error, now)
    ensures UpdateStatus(t, status, result, error, now).status == status
    ensures UpdateStatus(t, status, result, error, now).result == result
    ensures UpdateStatus(t, status, result, error, now).error == error
  {
  }

  /** The first half of `_process_task`: `update_status("processing")`. */
  function BeginProcessing(t: Task, now: nat): (r: Task)
    requires t.createdAt <= now
    ensures r.status == Processing && WellFormed(r)
    ensures r.id == t.id && r.data == t.data && r.createdAt == t.createdAt
  {
    UpdateStatus(t, Processing, None, None, now)
  }

  /** `_process_task`: mark the record processing at `now`, then completed
      with `{"processed": data}` at `now + 1`, or failed with the text of the
      exception when the computation raises `fault`. */
  function ProcessTask(t: Task, fault: Option<string>, now: nat): (r: Task)
    requires t.createdAt <= now
    ensures WellFormed(r) && r.status.IsTerminal()
    ensures r.status == Failed <==> fault.Some?
    ensures fault.Some? ==> r.error == fault && r.result == None
    ensures fault.None? ==> r.result == Some(ProcessedResult(t.data)) && r.error == None
    ensures r.id == t.id && r.data == t.data && r.createdAt == t.createdAt
    ensures r.updatedAt == now + 1
  {
    var p := BeginProcessing(t, now);
    match fault
    case None => UpdateStatus(p, Completed, Some(ProcessedResult(t.data)), None, now + 1)
    case Some(e) => UpdateStatus(p, Failed, None, Some(e), now + 1)
  }

  /** A worker handle: live, or cancelled by `stop`. */
  datatype Worker = Running | Cancelled

  datatype Manager = Manager(
    tasks: map<TaskId, Task>,
    queue: seq<TaskId>,
    maxWorkers: int,
    workers: seq<Worker>,
    started: bool,
    clock: nat)

  predicate NoDuplicates(s: seq<TaskId>) {
    forall i, j :: 0 <= i < j < |s| ==> s[i] != s[j]
  }

  /** What every reachable manager state satisfies between atomic steps:
      the queue holds registered ids once each, exactly the pending records
      are queued, no record is caught half-processed, every record is well
      formed and stamped before the current tick. */
  predicate Inv(m: Manager) {
    && (forall i :: 0 <= i < |m.queue| ==> m.queue[i] in m.tasks)
    && NoDuplicates(m.queue)
    && (forall id :: id in m.tasks ==> m.tasks[id].id == id && WellFormed(m.tasks[id]) && m.tasks[id].updatedAt < m.clock)
    && (forall id :: id in m.tasks ==> (m.tasks[id].status == Pending <==> id in m.queue))
    && (forall id :: id in m.tasks ==> m.tasks[id].status != Processing)
  }

  /** Every registered record is completed or failed. */
  predicate AllTerminal(m: Manager) {
    forall id :: id in m.tasks ==> m.tasks[id].status.IsTerminal()
  }

  /** The default of `max_workers`, the value the service runs with. */
  const DefaultMaxWorkers: int := 10

  /** `TaskQueueManager.__init__`: empty registry, empty unbounded queue, no
      workers yet. */
  function Init(maxWorkers: int := DefaultMaxWorkers): (m: Manager)
    ensures Inv(m) && m.tasks == map[] && m.queue == []
    ensures m.workers == [] && !m.started && m.maxWorkers == maxWorkers
  {
    Manager(map[], [], maxWorkers, [], false, 0)
  }

  /** `range(n)` is empty for a negative `n`. */
  function RangeLength(n: int): nat {
    if n < 0 then 0 else n
  }

  function CountRunning(ws: seq<Worker>): (n: nat)
    ensures n <= |ws|
    ensures n == 0 <==> Running !in ws
  {
    if ws == [] then 0 else (if ws[0] == Running then 1 else 0) + CountRunning(ws[1..])
  }

  lemma {:induction false} CountRunningAppend(a: seq<Worker>, b: seq<Worker>)
    ensures CountRunning(a + b) == CountRunning(a) + CountRunning(b)
    decreases |a|
  {
    if a == [] {
      assert a + b == b;
    } else {
      assert (a + b)[1..] == a[1..] + b;
      CountRunningAppend(a[1..], b);
    }
  }

  lemma {:induction false} CountRunningAllRunning(ws: seq<Worker>)
    requires forall i :: 0 <= i < |ws| ==> ws[i] == Running
    ensures CountRunning(ws) == |ws|
    decreases |ws|
  {
    if ws != [] {
      CountRunningAllRunning(ws[1..]);
    }
  }

  /** `start` with `_start_workers`: the first call spawns `max_workers`
      running workers and sets the started flag; every later call, including
      one after `stop`, does nothing. */
  function Start(m: Manager): (r: Manager)
    ensures r.started
    ensures r.tasks == m.tasks && r.queue == m.queue && r.clock == m.clock && r.maxWorkers == m.maxWorkers
    ensures m.started ==> r == m
    ensures !m.started ==> |r.workers| == |m.workers| + RangeLength(m.maxWorkers) && r.workers[..|m.workers|] == m.workers
    ensures !m.started ==> CountRunning(r.workers) == CountRunning(m.workers) + RangeLength(m.maxWorkers)
  {
    if m.started then m
    else
      var spawned := seq(RangeLength(m.maxWorkers), _ => Running);
      CountRunningAppend(m.workers, spawned);
      CountRunningAllRunning(spawned);
      m.(workers := m.workers + spawned, started := true)
  }

  /** Calling `start` twice is the same as calling it once. */
  lemma StartIdempotent(m: Manager)
    ensures Start(Start(m)) == Start(m)
  {
  }

  /** Spawning workers touches neither the registry nor the queue. */
  lemma StartPreservesInv(m: Manager)
    requires Inv(m)
    ensures Inv(Start(m))
  {
  }

  /** `add_task`: register a fresh pending record under `id`, append it to
      the tail of the queue (`put_nowait` on an unbounded queue never
      refuses) and return its id. Nothing else in the registry changes. */
  function AddTask(m: Manager, id: TaskId, data: Payload): (r: (Manager, TaskId))
    requires id !in m.tasks
    ensures r.1 == id
    ensures r.0.tasks.Keys == m.tasks.Keys + {id}
    ensures forall k :: k in m.tasks ==> r.0.tasks[k] == m.tasks[k]
    ensures r.0.tasks[id].status == Pending && r.0.tasks[id].data == data && r.0.tasks[id].createdAt == m.clock
    ensures r.0.queue == m.queue + [id] && |r.0.queue| == |m.queue| + 1
    ensures r.0.workers == m.workers && r.0.started == m.started && r.0.maxWorkers == m.maxWorkers
    ensures r.0.clock > m.clock
  {
    var t := NewTask(id, data, m.clock);
    (m.(tasks := m.tasks[id := t], queue := m.queue + [id], clock := m.clock + 1), id)
  }

  lemma AddTaskPreservesInv(m: Manager, id: TaskId, data: Payload)
    requires Inv(m) && id !in m.tasks
    ensures Inv(AddTask(m, id, data).0)
  {
    var r := AddTask(m, id, data).0;
    forall k | k in r.tasks
      ensures r.tasks[k].status == Pending <==> k in r.queue
    {
      if k != id {
        assert k in r.queue <==> k in m.queue;
      }
    }
    forall i, j | 0 <= i < j < |r.queue|
      ensures r.queue[i] != r.queue[j]
    {
      if j == |m.queue| {
        assert r.queue[i] == m.queue[i];
      }
    }
  }

  /** The snapshot `get_task_status` returns. Timestamps stay ticks rather
      than ISO strings. */
  datatype Snapshot = Snapshot(
    id: TaskId,
    status: string,
    result: Option<Value>,
    error: Option<string>,
    createdAt: nat,
    updatedAt: nat)

  /** `get_task_status`: `None` for an unknown id, otherwise a copy of the
      record's fields. */
  function GetTaskStatus(m: Manager, id: TaskId): (s: Option<Snapshot>)
    ensures s.None? <==> id !in m.tasks
    ensures s.Some? ==>
      && s.value.id == m.tasks[id].id
      && s.value.status == m.tasks[id].status.Name()
      && s.value.result == m.tasks[id].result
      && s.value.error == m.tasks[id].error
      && s.value.createdAt == m.tasks[id].createdAt
      && s.value.updatedAt == m.tasks[id].updatedAt
  {
    if id !in m.tasks then None
    else
      var t := m.tasks[id];
      Some(Snapshot(t.id, t.status.Name(), t.result, t.error, t.createdAt, t.updatedAt))
  }

  /** Right after `add_task` returns, polling the new id reports a pending
      record with neither result nor error. */
  lemma StatusAfterSubmitIsPending(m: Manager, id: TaskId, data: Payload)
    requires id !in m.tasks
    ensures GetTaskStatus(AddTask(m, id, data).0, id) == Some(Snapshot(id, "pending", None, None, m.clock, m.clock))
  {
  }

  /** A worker can take an item: the queue is not empty and some worker is
      live. Otherwise every live worker waits in `queue.get()`. */
  predicate CanDispatch(m: Manager) {
    |m.queue| > 0 && Running in m.workers
  }

  /** The head of the queue is a registered record stamped no later than the
      current tick, which every state satisfying `Inv` guarantees. */
  predicate HeadReady(m: Manager) {
    |m.queue| > 0 && m.queue[0] in m.tasks && m.tasks[m.queue[0]].createdAt <= m.clock
  }

  lemma InvGivesHeadReady(m: Manager)
    requires Inv(m) && |m.queue| > 0
    ensures HeadReady(m)
  {
  }

  /** One iteration of `_worker`: take the head of the queue, run
      `_process_task` on it, `task_done`. Returns the id dispatched. */
  function WorkerStep(m: Manager, fault: Option<string>): (r: (Manager, TaskId))
    requires CanDispatch(m) && HeadReady(m)
    ensures r.1 == m.queue[0] && r.0.queue == m.queue[1..]
    ensures r.0.tasks.Keys == m.tasks.Keys
    ensures forall k :: k in m.tasks && k != r.1 ==> r.0.tasks[k] == m.tasks[k]
    ensures r.0.tasks[r.1].status == (if fault.Some? then Failed else Completed)
    ensures r.0.tasks[r.1].error == fault
    ensures r.0.tasks[r.1].result == (if fault.Some? then None else Some(ProcessedResult(m.tasks[r.1].data)))
    ensures r.0.tasks[r.1].id == m.tasks[r.1].id && r.0.tasks[r.1].data == m.tasks[r.1].data
    ensures r.0.tasks[r.1].createdAt == m.tasks[r.1].createdAt
    ensures r.0.workers == m.workers && r.0.started == m.started && r.0.maxWorkers == m.maxWorkers
  {
    var id := m.queue[0];
    var t := ProcessTask(m.tasks[id], fault, m.clock);
    (m.(tasks := m.tasks[id := t], queue := m.queue[1..], clock := m.clock + 2), id)
  }

  lemma WorkerStepPreservesInv(m: Manager, fault: Option<string>)
    requires Inv(m) && CanDispatch(m)
    ensures Inv(WorkerStep(m, fault).0)
  {
    var r := WorkerStep(m, fault).0;
    var h := m.queue[0];
    assert h !in m.queue[1..] by {
      forall j | 0 <= j < |m.queue[1..]|
        ensures m.queue[1..][j] != h
      {
        assert m.queue[1..][j] == m.queue[j + 1];
      }
    }
    forall k | k in r.tasks
      ensures r.tasks[k].status == Pending <==> k in r.queue
    {
      if k != h {
        assert k in m.queue ==> k in r.queue by {
          if k in m.queue {
            var i :| 0 <= i < |m.queue| && m.queue[i] == k;
            assert r.queue[i - 1] == k;
          }
        }
      }
    }
  }

  /** The fault the computation raises for `id` during a drain, if any. */
  function FaultFor(faults: map<TaskId, string>, id: TaskId): Option<string> {
    if id in faults then Some(faults[id]) else None
  }

  /** Live workers empty the queue. Records already finished are not
      touched; every queued record ends failed exactly when its computation
      faults. */
  function Drain(m: Manager, faults: map<TaskId, string>): (r: Manager)
    requires Inv(m) && Running in m.workers
    ensures Inv(r) && r.queue == []
    ensures r.tasks.Keys == m.tasks.Keys
    ensures forall k :: k in m.tasks && k !in m.queue ==> r.tasks[k] == m.tasks[k]
    ensures forall k :: k in m.queue ==> r.tasks[k].status == (if k in faults then Failed else Completed)
    ensures r.workers == m.workers && r.started == m.started && r.maxWorkers == m.maxWorkers
    decreases |m.queue|
  {
    if m.queue == [] then m
    else
      var h := m.queue[0];
      var step := WorkerStep(m, FaultFor(faults, h));
      WorkerStepPreservesInv(m, FaultFor(faults, h));
      assert forall k :: k in m.queue && k != h ==> k in step.0.queue by {
        forall k | k in m.queue && k != h
          ensures k in step.0.queue
        {
          var i :| 0 <= i < |m.queue| && m.queue[i] == k;
          assert step.0.queue[i - 1] == k;
        }
      }
      Drain(step.0, faults)
  }

  /** Every record the drain takes keeps its data and creation time, and
      carries the fault it raised as its error, or `{"processed": data}` as
      its result when it raised nothing. */
  lemma {:induction false} DrainSettlesQueued(m: Manager, faults: map<TaskId, string>, k: TaskId)
    requires Inv(m) && Running in m.workers && k in m.queue
    ensures Drain(m, faults).tasks[k].error == FaultFor(faults, k)
    ensures Drain(m, faults).tasks[k].result == (if k in faults then None else Some(ProcessedResult(m.tasks[k].data)))
    ensures Drain(m, faults).tasks[k].data == m.tasks[k].data
    ensures Drain(m, faults).tasks[k].createdAt == m.tasks[k].createdAt
    decreases |m.queue|
  {
    var h := m.queue[0];
    var step := WorkerStep(m, FaultFor(faults, h));
    WorkerStepPreservesInv(m, FaultFor(faults, h));
    assert Drain(m, faults) == Drain(step.0, faults);
    if k == h {
      assert step.0.tasks[h].status != Pending;
      assert h !in step.0.queue;
    } else {
      var i :| 0 <= i < |m.queue| && m.queue[i] == k;
      assert step.0.queue[i - 1] == k;
      DrainSettlesQueued(step.0, faults, k);
    }
  }

  /** With an empty queue no record is pending and none is half-processed. */
  lemma EmptyQueueMeansAllTerminal(m: Manager)
    requires Inv(m) && m.queue == []
    ensures AllTerminal(m)
  {
  }

  function CancelAll(ws: seq<Worker>): (r: seq<Worker>)
    ensures |r| == |ws| && Running !in r
  {
    seq(|ws|, _ => Cancelled)
  }

  /** `stop`: wait for `queue.join()`, then cancel every worker. The join
      returns once every enqueued item is done, which needs a live worker
      whenever the queue is not empty; without one it never returns, shown
      here as `None`. The started flag is left as it was. */
  function Stop(m: Manager, faults: map<TaskId, string>): (r: Option<Manager>)
    requires Inv(m)
    ensures r.None? <==> |m.queue| > 0 && Running !in m.workers
    ensures r.Some? ==> Inv(r.value) && r.value.queue == [] && AllTerminal(r.value)
    ensures r.Some? ==> r.value.tasks.Keys == m.tasks.Keys
    ensures r.Some? ==> forall k :: k in m.tasks && k !in m.queue ==> r.value.tasks[k] == m.tasks[k]
    ensures r.Some? ==> forall k :: k in m.queue ==> r.value.tasks[k].status == (if k in faults then Failed else Completed)
    ensures r.Some? ==> forall k :: k in m.queue ==>
      && r.value.tasks[k].data == m.tasks[k].data
      && r.value.tasks[k].createdAt == m.tasks[k].createdAt
      && r.value.tasks[k].error == FaultFor(faults, k)
      && r.value.tasks[k].result == (if k in faults then None else Some(ProcessedResult(m.tasks[k].data)))
    ensures r.Some? ==> |r.value.workers| == |m.workers| && Running !in r.value.workers
    ensures r.Some? ==> r.value.started == m.started && r.value.maxWorkers == m.maxWorkers
  {
    if m.queue == [] then
      EmptyQueueMeansAllTerminal(m);
      Some(m.(workers := CancelAll(m.workers)))
    else if Running !in m.workers then None
    else
      var d := Drain(m, faults);
      assert forall k :: k in m.queue ==>
        && d.tasks[k].data == m.tasks[k].data
        && d.tasks[k].createdAt == m.tasks[k].createdAt
        && d.tasks[k].error == FaultFor(faults, k)
        && d.tasks[k].result == (if k in faults then None else Some(ProcessedResult(m.tasks[k].data))) by {
        forall k | k in m.queue
          ensures d.tasks[k].data == m.tasks[k].data && d.tasks[k].createdAt == m.tasks[k].createdAt
          ensures d.tasks[k].error == FaultFor(faults, k)
          ensures d.tasks[k].result == (if k in faults then None else Some(ProcessedResult(m.tasks[k].data)))
        {
          DrainSettlesQueued(m, faults, k);
        }
      }
      EmptyQueueMeansAllTerminal(d);
      Some(d.(workers := CancelAll(d.workers)))
  }

  /** A second `stop` returns at once and changes nothing. */
  lemma StopIdempotent(m: Manager, faults: map<TaskId, string>, later: map<TaskId, string>)
    requires Inv(m) && Stop(m, faults).Some?
    ensures Stop(Stop(m, faults).value, later) == Stop(m, faults)
  {
  }

  /** Once started, a manager that has been stopped cannot be restarted:
      `start` leaves it as it is, and no worker is live. */
  lemma NoRestartAfterStop(m: Manager, faults: map<TaskId, string>)
    requires Inv(m) && m.started
    ensures Stop(m, faults).Some? ==> Start(Stop(m, faults).value) == Stop(m, faults).value
    ensures Stop(m, faults).Some? ==> Running !in Start(Stop(m, faults).value).workers
  {
  }

  /** `add_task` keeps accepting after `stop`, and a later `stop` then waits
      forever on the item nobody will take. */
  lemma SubmitAfterStopStallsNextStop(m: Manager, faults: map<TaskId, string>, id: TaskId, data: Payload, later: map<TaskId, string>)
    requires Inv(m) && Stop(m, faults).Some? && id !in m.tasks
    ensures Inv(AddTask(Stop(m, faults).value, id, data).0)
    ensures Stop(AddTask(Stop(m, faults).value, id, data).0, later) == None
  {
    AddTaskPreservesInv(Stop(m, faults).value, id, data);
  }

  /** One observable event: a submission, or one attempt of a worker to take
      an item, with the fault its computation would raise. */
  datatype Event = Submit(id: TaskId, data: Payload) | Work(fault: Option<string>)

  /** The ids submitted by `evs`, in order. */
  function SubmittedIds(evs: seq<Event>): (ids: seq<TaskId>)
    ensures |ids| <= |evs|
  {
    if evs == [] then []
    else match evs[0]
      case Submit(id, _) => [id] + SubmittedIds(evs[1..])
      case Work(_) => SubmittedIds(evs[1..])
  }

  /** Every submission in `evs` uses an id unknown so far. */
  predicate FreshFor(known: set<TaskId>, evs: seq<Event>)
    decreases |evs|
  {
    evs == [] ||
    match evs[0]
    case Submit(id, _) => id !in known && FreshFor(known + {id}, evs[1..])
    case Work(_) => FreshFor(known, evs[1..])
  }

  /** Replay `evs`; also returns the ids in the order workers took them. A
      `Work` event when nothing can be dispatched leaves the state alone.
      Queue discipline: what was queued followed by what was submitted is
      exactly what was dispatched followed by what is still queued, so nothing
      is lost, duplicated or reordered. */
  function Run(m: Manager, evs: seq<Event>): (r: (Manager, seq<TaskId>))
    requires FreshFor(m.tasks.Keys, evs)
    ensures m.tasks.Keys <= r.0.tasks.Keys
    ensures m.queue + SubmittedIds(evs) == r.1 + r.0.queue
    decreases |evs|
  {
    if evs == [] then
      assert m.queue + SubmittedIds(evs) == m.queue;
      (m, [])
    else match evs[0]
      case Submit(id, data) =>
        var m1 := AddTask(m, id, data).0;
        assert m.queue + ([id] + SubmittedIds(evs[1..])) == m1.queue + SubmittedIds(evs[1..]);
        Run(m1, evs[1..])
      case Work(fault) =>
        if CanDispatch(m) && HeadReady(m) then
          var step := WorkerStep(m, fault);
          var rest := Run(step.0, evs[1..]);
          assert m.queue + SubmittedIds(evs[1..]) == [step.1] + (step.0.queue + SubmittedIds(evs[1..]));
          (rest.0, [step.1] + rest.1)
        else Run(m, evs[1..])
  }

  /** Every state a run reaches from a state satisfying `Inv` satisfies it,
      and a record that was completed or failed is never changed again. */
  lemma {:induction false} RunPreservesInv(m: Manager, evs: seq<Event>)
    requires Inv(m) && FreshFor(m.tasks.Keys, evs)
    ensures Inv(Run(m, evs).0)
    ensures forall k :: k in m.tasks && m.tasks[k].status.IsTerminal() ==> Run(m, evs).0.tasks[k] == m.tasks[k]
    decreases |evs|
  {
    if evs != [] {
      match evs[0]
      case Submit(id, data) =>
        AddTaskPreservesInv(m, id, data);
        RunPreservesInv(AddTask(m, id, data).0, evs[1..]);
      case Work(fault) =>
        if CanDispatch(m) && HeadReady(m) {
          WorkerStepPreservesInv(m, fault);
          RunPreservesInv(WorkerStep(m, fault).0, evs[1..]);
        } else {
          RunPreservesInv(m, evs[1..]);
        }
    }
  }

  /** Starting from an empty queue, workers begin tasks in exactly the order
      they were submitted: the dispatched ids are a prefix of the submitted
      ids. */
  lemma DispatchFollowsSubmissionOrder(m: Manager, evs: seq<Event>)
    requires Inv(m) && m.queue == [] && FreshFor(m.tasks.Keys, evs)
    ensures |Run(m, evs).1| <= |SubmittedIds(evs)|
    ensures Run(m, evs).1 == SubmittedIds(evs)[..|Run(m, evs).1|]
  {
    var d := Run(m, evs).1;
    assert SubmittedIds(evs) == d + Run(m, evs).0.queue;
    assert SubmittedIds(evs)[..|d|] == d;
  }
}

=== FILE: validators.dfy ===
/** The bound and membership checks of the text, image and video validation
    models, as pure checks over explicit inputs. What a media library reports
    (pixel size, MIME type, detected language) is an input. A bound that is
    absent from the model's already-validated fields is `None`, and the
    check falls back to the default the source reads it with. */
module Validators {
  import opened Common

  datatype ValidationError =
    | TextTooShort(minLength: int)
    | TextTooLong(maxLength: int)
    | LanguageUndetectable
    | UnsupportedLanguage(language: string)
    | SizeBelowMinimum(minWidth: int, minHeight: int)
    | WidthAboveMaximum(maxWidth: int)
    | HeightAboveMaximum(maxHeight: int)
    | UnsupportedFormat(mime: string)
    | FileTooLarge
    | VideoTooLong

  /** A maximum that applies: Python skips `if max and x > max` when the
      maximum is `None` or 0. */
  predicate Exceeds(x: int, max: Option<int>) {
    max.Some? && max.value != 0 && x > max.value
  }

  /** `validate_text_length`: too short is reported first; a maximum of
      `None` or 0 imposes no upper bound. */
  function ValidateTextLength(text: string, minLength: Option<int>, maxLength: Option<int>): (r: Outcome<ValidationError>)
    ensures r.Pass? <==> minLength.GetOr(0) <= |text| && !Exceeds(|text|, maxLength)
    ensures |text| < minLength.GetOr(0) ==> r == Fail(TextTooShort(minLength.GetOr(0)))
    ensures r.Fail? && |text| >= minLength.GetOr(0) ==> r == Fail(TextTooLong(maxLength.value))
  {
    var min := minLength.GetOr(0);
    if |text| < min then Fail(TextTooShort(min))
    else if maxLength.Some? && maxLength.value != 0 && |text| > maxLength.value then Fail(TextTooLong(maxLength.value))
    else Pass
  }

  /** A text exactly as long as a given maximum passes the maximum check. */
  lemma TextAtMaximumAccepted(text: string, minLength: Option<int>, max: int)
    requires minLength.GetOr(0) <= |text| == max
    ensures ValidateTextLength(text, minLength, Some(max)) == Pass
  {
  }

  const DefaultLanguages: seq<string> := ["zh-cn", "en"]

  /** `validate_language`, with the detector's answer as input: `None` when
      detection raises. */
  function ValidateLanguage(detected: Option<string>, allowedLanguages: Option<seq<string>>): (r: Outcome<ValidationError>)
    ensures detected.None? ==> r == Fail(LanguageUndetectable)
    ensures detected.Some? && r.Fail? ==> r == Fail(UnsupportedLanguage(detected.value))
    ensures r.Pass? <==> detected.Some? && detected.value in allowedLanguages.GetOr(DefaultLanguages)
  {
    match detected
    case None => Fail(LanguageUndetectable)
    case Some(lang) =>
      if lang in allowedLanguages.GetOr(DefaultLanguages) then Pass else Fail(UnsupportedLanguage(lang))
  }

  /** The bounds an image or video check reads; `None` for each bound that is
      absent. */
  datatype SizeBounds = SizeBounds(minWidth: Option<int>, minHeight: Option<int>, maxWidth: Option<int>, maxHeight: Option<int>)

  /** No bound present: what a validator on the first declared field sees. */
  const NoBounds: SizeBounds := SizeBounds(None, None, None, None)

  /** The shared min-then-max rule: either dimension under its minimum is
      reported before any maximum, then the width maximum before the height
      maximum. Exactly equal to a maximum is accepted. */
  function CheckSize(width: int, height: int, minWidth: int, minHeight: int, maxWidth: Option<int>, maxHeight: Option<int>): (r: Outcome<ValidationError>)
    ensures r.Pass? <==> minWidth <= width && minHeight <= height && !Exceeds(width, maxWidth) && !Exceeds(height, maxHeight)
    ensures (width < minWidth || height < minHeight) ==> r == Fail(SizeBelowMinimum(minWidth, minHeight))
    ensures minWidth <= width && minHeight <= height && Exceeds(width, maxWidth) ==> r == Fail(WidthAboveMaximum(maxWidth.value))
    ensures minWidth <= width && minHeight <= height && !Exceeds(width, maxWidth) && Exceeds(height, maxHeight) ==> r == Fail(HeightAboveMaximum(maxHeight.value))
    ensures r.Fail? && r.error.WidthAboveMaximum? ==> minWidth <= width && minHeight <= height && Exceeds(width, maxWidth)
    ensures r.Fail? && r.error.HeightAboveMaximum? ==> minWidth <= width && minHeight <= height && !Exceeds(width, maxWidth)
  {
    if width < minWidth || height < minHeight then Fail(SizeBelowMinimum(minWidth, minHeight))
    else if maxWidth.Some? && maxWidth.value != 0 && width > maxWidth.value then Fail(WidthAboveMaximum(maxWidth.value))
    else if maxHeight.Some? && maxHeight.value != 0 && height > maxHeight.value then Fail(HeightAboveMaximum(maxHeight.value))
    else Pass
  }

  /** A maximum of 0 behaves exactly like no maximum. */
  lemma ZeroMaximumIsNoMaximum(width: int, height: int, minWidth: int, minHeight: int, maxHeight: Option<int>)
    ensures CheckSize(width, height, minWidth, minHeight, Some(0), maxHeight) == CheckSize(width, height, minWidth, minHeight, None, maxHeight)
    ensures CheckSize(width, height, minWidth, minHeight, maxHeight, Some(0)) == CheckSize(width, height, minWidth, minHeight, maxHeight, None)
  {
  }

  const ImageDefaultMinWidth: int := 100
  const ImageDefaultMinHeight: int := 100
  const VideoDefaultMinWidth: int := 320
  const VideoDefaultMinHeight: int := 240

  /** `ImageValidationModel.validate_dimensions` on the reported pixel size:
      minima default to 100x100, absent maxima impose nothing. */
  function ValidateImageDimensions(width: int, height: int, b: SizeBounds): (r: Outcome<ValidationError>)
    ensures r.Pass? <==>
      && b.minWidth.GetOr(ImageDefaultMinWidth) <= width && b.minHeight.GetOr(ImageDefaultMinHeight) <= height
      && !Exceeds(width, b.maxWidth) && !Exceeds(height, b.maxHeight)
  {
    CheckSize(width, height, b.minWidth.GetOr(ImageDefaultMinWidth), b.minHeight.GetOr(ImageDefaultMinHeight), b.maxWidth, b.maxHeight)
  }

  /** `VideoValidationModel.validate_resolution` on the reported frame size:
      minima default to 320x240, absent maxima impose nothing. */
  function ValidateVideoResolution(width: int, height: int, b: SizeBounds): (r: Outcome<ValidationError>)
    ensures r.Pass? <==>
      && b.minWidth.GetOr(VideoDefaultMinWidth) <= width && b.minHeight.GetOr(VideoDefaultMinHeight) <= height
      && !Exceeds(width, b.maxWidth) && !Exceeds(height, b.maxHeight)
  {
    CheckSize(width, height, b.minWidth.GetOr(VideoDefaultMinWidth), b.minHeight.GetOr(VideoDefaultMinHeight), b.maxWidth, b.maxHeight)
  }

  /** With no bounds present, any image of at least 100x100 passes, however
      large. */
  lemma UnboundedImageAcceptsAnyLargeImage(width: int, height: int)
    requires width >= ImageDefaultMinWidth && height >= ImageDefaultMinHeight
    ensures ValidateImageDimensions(width, height, NoBounds) == Pass
  {
  }

  const ImageDefaultFormats: seq<string> := ["image/jpeg", "image/png", "image/gif"]
  const VideoDefaultFormats: seq<string> := ["video/mp4", "video/avi", "video/mov"]

  /** Membership of the detected MIME type in the allowed list. */
  function CheckFormat(mime: string, allowed: seq<string>): (r: Outcome<ValidationError>)
    ensures r.Pass? <==> exists i :: 0 <= i < |allowed| && allowed[i] == mime
    ensures r.Fail? ==> r.error == UnsupportedFormat(mime)
  {
    if mime in allowed then Pass else Fail(UnsupportedFormat(mime))
  }

  /** `ImageValidationModel.validate_format` on the detected MIME type. */
  function ValidateImageFormat(mime: string, allowedFormats: Option<seq<string>>): (r: Outcome<ValidationError>)
    ensures r.Pass? <==> mime in allowedFormats.GetOr(ImageDefaultFormats)
  {
    CheckFormat(mime, allowedFormats.GetOr(ImageDefaultFormats))
  }

  /** With no list given, exactly JPEG, PNG and GIF images are accepted. */
  lemma DefaultImageFormats(mime: string)
    ensures ValidateImageFormat(mime, None).Pass? <==> mime == "image/jpeg" || mime == "image/png" || mime == "image/gif"
  {
  }

  /** `VideoValidationModel.validate_format` on the detected MIME type. */
  function ValidateVideoFormat(mime: string, allowedFormats: Option<seq<string>>): (r: Outcome<ValidationError>)
    ensures r.Pass? <==> mime in allowedFormats.GetOr(VideoDefaultFormats)
  {
    CheckFormat(mime, allowedFormats.GetOr(VideoDefaultFormats))
  }

  /** With no list given, exactly the MIME types "video/mp4", "video/avi" and
      "video/mov" are accepted. */
  lemma DefaultVideoFormats(mime: string)
    ensures ValidateVideoFormat(mime, None).Pass? <==> mime == "video/mp4" || mime == "video/avi" || mime == "video/mov"
  {
  }
}

=== FILE: values.dfy ===
/** The JSON-like values a request payload is made of: the source passes
    `Dict[str, Any]` payloads through the preprocessor into the task queue. */
module Values {

  datatype Value =
    | VNull
    | VBool(b: bool)
    | VInt(i: int)
    | VReal(r: real)
    | VStr(s: string)
    | VList(items: seq<Value>)
    | VDict(fields: map<string, Value>)

  /** A request payload: a dictionary keyed by strings. */
  type Payload = map<string, Value>
}
